=== FILE: README.md ===
# Dependency-injection container resolution engine, in Dafny

This project models the resolution engine of the `di` package of
go-dependency-injector. The package is an in-process dependency-injection
container. It keeps a registry keyed by (type, name) whose records hold a
factory or a pre-built instance and a lifetime. Around the registry sit a
container-wide singleton cache and per-scope caches. A recursive resolver
builds an object by resolving its factory's parameters first, and it detects
cycles over the chain of types currently being resolved.

The model is functional. A `State` holds Go's `Container` maps
(`registrations`, `singletons`, `scopes`). It also holds what the Go program
reaches through pointers or what the model needs in order to observe behaviour:
- the scope objects, kept in `heap` because a caller may keep using a scope
  after the container has dropped it;
- two fresh-identity counters, `nextScope` and `nextValue`, that stand in for
  allocation;
- a per-key count of factory calls, `invocations`, used to state the
  "exactly once" and "every time" properties.

Every operation is a pure function from a state to a result and a new state.
Resolution requires a well-formed state (`Containers.Valid`), and every public
operation preserves well-formedness. Well-formedness includes every factory
having passed validation, and every object the container holds having an
identity below `nextValue`. `RegisterInstance` therefore marks the caller's
instance identity as allocated. Objects a factory makes are then distinct from
registered instances as well as from cached objects.

Go reflection is replaced by abstract data:
- a runtime type is a `TypeTag`, a comparable value with a printable name;
- an object is a `Value` with an identity;
- a factory is a `Signature` plus an `Outcome`. The signature says whether it
  is a function, its parameter types in declaration order, its result types,
  whether the first result is assignable to the registered type, and whether
  the second result is an `error`. The outcome is either "build a new object"
  or "return this error".

Modules follow the source files:
- `Errors` (errors.go);
- `Lifetimes` and `Scopes` (lifetime.go);
- `Registrations` (registration.go);
- `Containers` and `Resolver` (container.go);
- `Properties`, which relates several resolutions to one another.

Resolution terminates because of a measure. The cycle check runs only after
the registry lookup succeeds, so every recursive step adds a registered type
that is not yet on the chain. The measure is therefore the set of registered
types not yet on the chain, and it shrinks strictly at each step.

Three behaviours of the Go code shape the model:
- `validateFactory` rejects a factory with zero results (`"factory must return
  a value"`, di/container.go:433-436), so the zero-result branch of
  `invokeFactory` (di/container.go:409-412) is dead code.
- `RegisterType` performs no validation and always succeeds. It is not
  `Register` with a synthesized factory in every respect.
- An instance registration keeps whatever lifetime the options set. It short-
  circuits before any cache is consulted, so the lifetime has no effect.

## Model

| member | source | states |
|---|---|---|
| Errors.Message | di/errors.go:28-143 | every container error's text starts with the package prefix "di: "; a factory's own error is printed as its own message, with no prefix added |
| Errors.Unwrap | di/errors.go:95-97 | only `ResolutionFailed` unwraps, and its cause's text ends the wrapper's text |
| Errors.JoinNames | di/errors.go:56-62 | the joined chain is empty for an empty chain and the bare name for a single type; it starts with the first type's name and ends with the last one's |
| Errors.UnwrapChain | di/errors.go:95-97 | repeated `Unwrap` is a finite sequence starting at the error, each step yields the next element, and the last element has no cause |
| Errors.UnwrapYieldsCause | di/errors.go:95-97 | `Unwrap` of `ResolutionFailed` is exactly its cause; the errors reached by unwrapping the wrapper are the wrapper itself followed by those reached from its cause |
| Errors.ResolverErrorRoot | di/errors.go:95-97 | unwrapping a resolver error ends at `NotRegistered`, `CircularDependency` or the factory's own error, and that root lies on the wrapper's unwrap chain |
| Errors.MessageEndsWithRoot | di/errors.go:89-91 | the message of a wrapped error ends with the message of its innermost cause |
| Errors.NotRegisteredNamesType | di/errors.go:28-30 | the message is "di: type " + name + " is not registered", and the type name can be read back from it |
| Errors.ResolutionFailedNamesCause | di/errors.go:89-91 | the message is "di: failed to resolve " + type name + ": " + the cause's message |
| Errors.InvalidFactoryNamesReason | di/errors.go:128-130 | the message is "di: invalid factory for " + type name + ": " + the reason |
| Errors.ScopeNotFoundNamesScope | di/errors.go:141-143 | the message is "di: scope \"" + name + "\" not found", and the name can be read back from between the quotes |
| Errors.JoinNamesSnoc | di/errors.go:56-62 | extending a chain by one type appends " -> " and that type's name to the joined names |
| Errors.CycleMessage | di/errors.go:56-62 | a cycle found under a chain is printed as the joined chain, then " -> ", then the repeated type's name |
| Lifetimes.Name | di/lifetime.go:17-28 | the result is "Unknown" exactly when the lifetime is none of the three constants |
| Lifetimes.NameDistinguishesKnown | di/lifetime.go:6-28 | the constants are 0, 1 and 2, printed as "Transient", "Singleton" and "Scoped", and distinct known lifetimes have distinct names |
| Registrations.ApplyAll | di/container.go:81-83 | running the options never changes the target type, the implementation type, or the factory/instance binding |
| Registrations.LastOptionWins | di/container.go:75-83 | options run in order after the defaults, so the last lifetime option and the last name option win; no other field changes |
| Registrations.WithLifetime | di/registration.go:48-52 | the option sets the lifetime to exactly the given value and changes nothing else |
| Registrations.AsSingleton | di/registration.go:67-71 | the option sets the lifetime to `Singleton` and changes nothing else |
| Registrations.AsTransient | di/registration.go:86-90 | the option sets the lifetime to `Transient` and changes nothing else |
| Registrations.AsScoped | di/registration.go:110-114 | the option sets the lifetime to `Scoped` and changes nothing else |
| Registrations.WithName | di/registration.go:131-135 | the option sets the name to exactly the given string and changes nothing else |
| Scopes.NewScope | di/lifetime.go:38-44 | a new scope carries the given name and caches nothing |
| Scopes.Get | di/container.go:363-367 | a lookup misses exactly when nothing is cached under the key, and a hit is one of the cached values |
| Scopes.Set | di/lifetime.go:31-35 | after caching `v` under a key, lookup of that key yields `v`; every other key and the name are unchanged |
| Containers.New | di/container.go:35-42 | a new container has no registrations, no cached singletons and no scopes, and is well formed |
| Containers.ValidateFactory | di/container.go:425-461 | a factory is accepted iff it is a function with one or two results, the first assignable to the target, and any second result an error; every rejection is `InvalidFactory` for the target type |
| Containers.Register | di/container.go:71-97 | an invalid factory is refused with `InvalidFactory` and changes nothing; a valid one overwrites exactly the (type, last name) entry, with the last lifetime option or `Transient`, and never touches caches or scopes |
| Containers.RegisterInstance | di/container.go:116-136 | stores the instance under (type, last name), with the last lifetime option or `Singleton`, and also caches it as that key's singleton; nothing else changes |
| Containers.TypeFactory | di/container.go:161-164 | the synthesized factory takes no parameters, passes validation, and builds a new object |
| Containers.RegisterType | di/container.go:154-184 | always succeeds and overwrites only the (interface, last name) entry with the synthesized factory and the recorded implementation type |
| Containers.CreateScope | di/container.go:295-302 | allocates a scope not seen before, empty and carrying the given name; maps the name to it, replacing any earlier entry; leaves everything else alone |
| Containers.HasNamed | di/container.go:486-496 | in a well-formed container, true exactly when a registration for that type and name exists |
| Containers.Has | di/container.go:474-476 | in a well-formed container, true exactly when an unnamed registration for the type exists; a named one does not count |
| Containers.Clear | di/container.go:513-520 | afterwards no key is registered, no singleton is cached and the scope table is empty |
| Resolver.Resolve | di/container.go:329-388 | the registry never changes; caches only gain entries, only in the given scope, and never for a type on the chain; on failure nothing is cached for the resolved type; no factory of a type on the chain runs; every error has a resolver shape |
| Resolver.PendingShrinks | di/container.go:335-345 | a type that passes lookup and the cycle check shrinks the set of registered types not yet on the chain, so resolution terminates |
| Resolver.Create | di/container.go:369-387 | a cache miss invokes the factory under the chain extended by the type; a failure is `ResolutionFailed` for that type and caches nothing for it; a success is a newly allocated object, and no factory of a type on the chain runs |
| Resolver.Store | di/container.go:376-385 | a singleton lands in the container's cache and every other entry, the registry, the scope table and the scopes stay as they were; a scoped object lands in its scope's cache when the scope exists, and that scope's other entries, its name, every other scope and the container stay as they were; any other lifetime leaves the state as it was; well-formedness is kept |
| Resolver.InvokeFactory | di/container.go:391-422 | no factory of a type on the chain other than the resolved key runs; an error is a resolver error or the factory's own; a success is a newly allocated object |
| Resolver.InvokeFactoryRunsIffParamsResolve | di/container.go:391-422 | the factory runs, counted once against the resolved key, exactly when every parameter resolved; otherwise the parameters' failure is returned as-is in the state they left; a factory error comes only from a two-result factory whose outcome fails |
| Resolver.ResolveParams | di/container.go:395-404 | parameters are resolved under the same chain and scope; success yields one value per parameter; a failure is a resolver error |
| Resolver.ResolveParamsAppend | di/container.go:395-404 | resolving `p + q` is resolving `p`, then, if that succeeds, `q` in the state it left, with the values concatenated; a failure of `p` stops there |
| Resolver.ResolveParamsInOrder | di/container.go:395-404 | parameter i is resolved unnamed after parameters 0 .. i-1, in the state they leave; its failure is the loop's failure, and on success value i is its value and the earlier values are theirs |
| Resolver.ResolveNamed | di/container.go:221-231 | fails with `NotRegistered` of the type iff `HasNamed` is false; any other failure is `ResolutionFailed` for that type; the registry is unchanged |
| Resolver.ResolveUnnamed | di/container.go:203-205 | fails with `NotRegistered` of the type iff `Has` is false |
| Resolver.ResolveInScope | di/container.go:316-326 | fails with `NotRegistered` iff `Has` is false; otherwise any failure is `ResolutionFailed`; of the scope caches, only the given scope's can change |
| Properties.MissingRegistrationFailsFirst | di/container.go:331-337 | an unregistered key fails with `NotRegistered`, even when its type is already on the chain; the state is unchanged |
| Properties.CycleReportsChain | di/container.go:339-345 | a registered type already on the chain fails with `CircularDependency(chain + [type])`, whose last element repeats an earlier one; the state is unchanged |
| Properties.MutualDependencyReported | di/container.go:370-373 | when A and B each need the other, resolving A fails with `ResolutionFailed(A, ResolutionFailed(B, CircularDependency([A, B, A])))`; the cycle error lies on its unwrap chain, and neither factory runs |
| Properties.SecondOfCycleFails | di/container.go:339-345 | under the chain [A], resolving B, which needs A, fails with `ResolutionFailed(B, CircularDependency([A, B, A]))` and changes nothing |
| Properties.CycleOnUnwrapChain | di/errors.go:95-97 | unwrapping `ResolutionFailed(A, ResolutionFailed(B, c))` twice reaches `c` |
| Properties.InstanceShortCircuits | di/container.go:347-350 | an instance registration returns its instance, whatever its lifetime; nothing changes |
| Properties.RegisteredInstanceResolves | di/container.go:116-136 | right after `RegisterInstance`, resolving its key yields exactly that instance and calls no factory |
| Properties.SingletonMadeOnce | di/container.go:352-380 | the first successful resolution of an uncached singleton runs its factory once and caches the result; the next resolution returns the same value and changes nothing |
| Properties.SingletonCacheAnswers | di/container.go:352-360 | a cached singleton is returned as-is, in any scope, with no factory call |
| Properties.SingletonSurvivesResolution | di/container.go:376-380 | no resolution drops or overwrites a cached singleton |
| Properties.ScopedCachedPerScope | di/container.go:362-386 | a scoped miss that succeeds runs the factory once, caches a new object in that scope only, and the same scope then returns it with no further call |
| Properties.ScopedDistinctAcrossScopes | di/container.go:362-386 | when both resolutions succeed, two distinct scopes get distinct objects, with one factory call each |
| Properties.UncachedLifetimeCallsEveryTime | di/container.go:369-386 | `Transient`, a scope-less `Scoped`, and unknown lifetimes never cache under their key; each success runs the factory once and yields a newly allocated object, which is no cached singleton, scope entry or registered instance |
| Properties.CreateUncached | di/container.go:369-386 | past the cache lookups, an uncached lifetime leaves the state the factory call left: no cache gains the key, and a success counts one factory call |
| Properties.TransientFreshEachTime | di/container.go:369-386 | two resolutions of a transient registration run the factory twice and return different objects |
| Properties.FailureWrapsAndCachesNothing | di/container.go:370-373 | a failing registered type fails with `ResolutionFailed` for that type, and no cache gains an entry for its key |
| Properties.FactoryErrorWrapped | di/container.go:414-419 | a non-nil factory error becomes `ResolutionFailed(type, error)`; whenever every parameter resolved; the factory ran exactly once, and its error lies on the unwrap chain |
| Properties.ParameterFailureAborts | di/container.go:397-402 | when parameters 0 .. i-1 resolve and parameter i fails, the resolution fails with parameter i's error wrapped for the type being resolved, in the state that parameter's resolution left, and that type's factory never runs |
| Properties.ResolutionErrorsBottomOut | di/container.go:370-373 | every top-level resolution error unwraps to `NotRegistered`, `CircularDependency` or a factory error |
| Properties.ReRegisterKeepsStaleSingleton | di/container.go:90-96 | re-registering as a singleton a key whose singleton is cached keeps serving the cached value and does not call the new factory |
| Properties.NamedRegistrationsIndependent | di/registration.go:138-141 | registering under one name leaves every other name of the same type, including the unnamed key, as it was |
| Properties.UnnamedMissingBesideNamed | di/container.go:486-496 | with only a named registration, `HasNamed` holds for that name and the unnamed resolution fails with `NotRegistered` |
| Properties.ClearForgetsEverything | di/container.go:513-520 | after `Clear` every resolution fails with `NotRegistered`; a singleton registered anew is built by a new factory call and cached, as an object that is none of the cached singletons, scope entries or registered instances from before the clear |
| Properties.UncachedValueIsFresh | di/container.go:369-373 | an object made by an uncached resolution has an identity no earlier object had, so it is none of the objects the container held, registered instances included |
| Properties.Perform | di/container.go:71-520 | every public operation keeps the state well formed and keeps every scope object with its name |
| Properties.Run | di/container.go:71-520 | any sequence of public operations keeps the state well formed |
| Properties.ReachableFactoriesReturnValue | di/container.go:409-412 | in every state reachable from `New`, each registered factory passed validation and has one or two results, so the zero-result branch of `invokeFactory` is never reached |
| Properties.ScopeKeepsName | di/lifetime.go:47-49 | `Name` of a scope object stays the name it was created with through any sequence of operations |

## Left out

- Locking with `sync.RWMutex`, concurrent callers, and the singleton "double-create" race. The model is a single-threaded state.
- The `result.(T)` assertion in `ResolveNamed` and `ResolveInScope`, and the assertion inside the `RegisterType` factory. The latter panics when the implementation does not satisfy the interface. Both are reflection checks, and the model has abstract values.
- `AssignableTo` and `Implements`. These become the two booleans of `Signature` and are not computed from types.
- `MustResolve` and `MustResolveNamed`. They are the resolve calls plus a panic.
- The zero-result branch of `invokeFactory`. `Resolver.InvokeFactory` requires a factory that passed validation, and `Properties.ReachableFactoriesReturnValue` shows every registered factory did, so the branch has no counterpart.
- The `get` and `set` methods of `Scope`. container.go calls them (di/container.go:364 and di/container.go:383), but lifetime.go's `Scope` declares no such methods. The model treats them as lookup and update of the `instances` map.
- Resolver.InvokeFactory: does not model the panic of `results[1].IsNil()` (di/container.go:416). `validateFactory` accepts any second result whose type implements `error` (di/container.go:447-452), including a struct or integer type with an `Error()` method, and `IsNil` panics on such a value. The model assumes the second result is of a nil-able kind, an interface or a pointer, so such a registration resolves normally here instead of panicking.
- The unused `resolving` map of the container.
- `ErrScopeNotFound` is never produced by any operation, so only its message is modelled. Go's `%q` escaping is modelled as the plain name between double quotes.
- A nil instance in `RegisterInstance`, and a nil factory. Instances are always values.
- Factory behaviour that depends on the arguments or on earlier calls. A factory's outcome is fixed, and a successful call always yields a new object.
- Factory errors that are themselves container errors. A factory's error is modelled as `FactoryError(message)`.
- The `parent` pointer of `Scope`. Nothing reads it.
- Scope handles not allocated by `CreateScope`. A handle that is not in `heap` behaves as an empty cache, and stores to it are dropped.
- main.go (a demo application), the benchmarks, doc.go, and the printing in the examples.

=== FILE: container.dfy ===
/** The container: the registry, the singleton cache and the scope table,
    with the operations that register, query, create scopes and clear.
    Resolution lives in the `Resolver` module. */
module Containers {
  import opened Wrappers
  import opened Tags
  import opened Errors
  import opened Lifetimes
  import opened Registrations
  import Scopes

  /** A `*Scope` pointer: scope objects live in `State.heap`. */
  type ScopeRef = nat

  /** The three maps of Go's `Container`. */
  datatype Container = Container(
    registrations: map<Key, Registration>,
    singletons: map<Key, Value>,
    scopes: map<string, ScopeRef>)

  /** The container together with what it reaches through pointers and what
      the model observes: the scope objects (which outlive their entry in the
      scope table), fresh-identity counters for scopes and created objects,
      and how many times each key's factory has been called. */
  datatype State = State(
    c: Container,
    heap: map<ScopeRef, Scopes.Scope>,
    nextScope: nat,
    nextValue: nat,
    invocations: map<Key, nat>)

  /** Number of factory calls made for `k` so far. */
  function Calls(st: State, k: Key): nat
  {
    if k in st.invocations then st.invocations[k] else 0
  }

  /** The shape `validateFactory` accepts: a function with one result
      assignable to the target, or two results of which the second is an
      error. */
  predicate ValidShape(sig: Signature)
  {
    && sig.isFunc
    && 1 <= |sig.outs| <= 2
    && sig.firstAssignable
    && (|sig.outs| == 2 ==> sig.secondIsError)
  }

  /** `v` is an object the container holds: a cached singleton, an entry of
      some scope's cache, or a registered instance. */
  predicate Stored(st: State, v: Value)
  {
    || (exists k :: k in st.c.singletons && st.c.singletons[k] == v)
    || (exists r, k :: r in st.heap && k in st.heap[r].instances && st.heap[r].instances[k] == v)
    || (exists k :: k in st.c.registrations && st.c.registrations[k].binding == Instance(v))
  }

  /** What every reachable state satisfies: scope pointers were allocated,
      every registration sits under its own key, every factory passed
      validation, and every object the container holds was allocated. */
  predicate Valid(st: State)
  {
    && (forall r :: r in st.heap ==> r < st.nextScope)
    && (forall n :: n in st.c.scopes ==> st.c.scopes[n] in st.heap)
    && (forall k :: k in st.c.registrations ==>
          && st.c.registrations[k].target == k.typ
          && st.c.registrations[k].name == k.name
          && (st.c.registrations[k].binding.Made? ==> ValidShape(st.c.registrations[k].binding.factory.sig))
          && (st.c.registrations[k].binding.Instance? ==> st.c.registrations[k].binding.value.id < st.nextValue))
    && (forall k :: k in st.c.singletons ==> st.c.singletons[k].id < st.nextValue)
    && (forall r, k :: r in st.heap && k in st.heap[r].instances ==> st.heap[r].instances[k].id < st.nextValue)
  }

  /** Allocating identities or counting calls keeps a state well formed. */
  lemma ValidUnderCounters(st: State, st': State)
    requires Valid(st)
    requires st'.c == st.c && st'.heap == st.heap && st'.nextScope == st.nextScope
    requires st.nextValue <= st'.nextValue
    ensures Valid(st')
  {
  }

  /** An object whose identity is not yet allocated is none of the objects
      a well-formed container holds. */
  lemma FreshIsNotStored(st: State, v: Value)
    requires Valid(st) && st.nextValue <= v.id
    ensures !Stored(st, v)
  {
  }

  /** `New`: an empty container. */
  function New(): (st: State)
    ensures Valid(st)
    ensures forall k :: k !in st.c.registrations && k !in st.c.singletons && Calls(st, k) == 0
    ensures forall n :: n !in st.c.scopes
  {
    State(Container(map[], map[], map[]), map[], 0, 0, map[])
  }

  /** `validateFactory`: the checks run in `validateFactory`'s order, and the first
      failing one names the reason. */
  function ValidateFactory(target: TypeTag, sig: Signature): (r: Option<Error>)
    ensures r.None? <==> ValidShape(sig)
    ensures r.Some? ==> r.value.InvalidFactory? && r.value.typ == target
  {
    if !sig.isFunc then Some(InvalidFactory(target, "factory must be a function"))
    else if |sig.outs| == 0 then Some(InvalidFactory(target, "factory must return a value"))
    else if !sig.firstAssignable then
      Some(InvalidFactory(target, "factory return type " + sig.outs[0].name + " is not assignable to " + target.name))
    else if |sig.outs| == 2 && !sig.secondIsError then Some(InvalidFactory(target, "second return value must be error"))
    else if |sig.outs| > 2 then Some(InvalidFactory(target, "factory cannot return more than 2 values"))
    else None
  }

  /** The result of a registration call: Go's returned `error` and the new state. */
  datatype Registered = Registered(err: Option<Error>, st: State)

  /** Everything but the registry is left alone, and the registry changes at
      `key` only, where it now holds `reg`. */
  predicate OnlyRegistryAt(st: State, st': State, key: Key, reg: Registration)
  {
    && st'.c.registrations == st.c.registrations[key := reg]
    && st'.c.singletons == st.c.singletons
    && st'.c.scopes == st.c.scopes
    && st'.heap == st.heap
    && st'.nextScope == st.nextScope
    && st'.nextValue == st.nextValue
    && st'.invocations == st.invocations
  }

  /** `Register`: an invalid factory is refused and nothing changes; a valid
      one is stored under (type, last name option), overwriting whatever was
      there, with the last lifetime option or `Transient`. Caches are never
      evicted. */
  function Register(st: State, t: TypeTag, f: Factory, opts: seq<RegistrationOption>): (r: Registered)
    ensures r.err.Some? <==> !ValidShape(f.sig)
    ensures r.err.Some? ==> r.err.value.InvalidFactory? && r.err.value.typ == t && r.st == st
    ensures r.err.None? ==>
      var key := Key(t, LastName(opts, ""));
      && key in r.st.c.registrations
      && r.st.c.registrations[key].binding == Made(f)
      && r.st.c.registrations[key].lifetime == LastLifetime(opts, Transient)
      && OnlyRegistryAt(st, r.st, key, r.st.c.registrations[key])
    ensures Valid(st) ==> Valid(r.st)
  {
    var reg := ApplyAll(opts, Registration(t, None, Made(f), Transient, ""));
    LastOptionWins(opts, Registration(t, None, Made(f), Transient, ""));
    match ValidateFactory(t, f.sig)
    case Some(e) => Registered(Some(e), st)
    case None =>
      Registered(None, st.(c := st.c.(registrations := st.c.registrations[Key(t, reg.name) := reg])))
  }

  /** `RegisterInstance`: stores the instance under (type, last name option)
      with the last lifetime option or `Singleton`, and also puts it in the
      singleton cache under that key. The caller built the instance, so its
      identity counts as allocated: no factory can make it afterwards. */
  function RegisterInstance(st: State, t: TypeTag, v: Value, opts: seq<RegistrationOption>): (st': State)
    ensures var key := Key(t, LastName(opts, ""));
      && key in st'.c.registrations
      && st'.c.registrations[key].binding == Instance(v)
      && st'.c.registrations[key].lifetime == LastLifetime(opts, Singleton)
      && st'.c.registrations == st.c.registrations[key := st'.c.registrations[key]]
      && st'.c.singletons == st.c.singletons[key := v]
      && st'.c.scopes == st.c.scopes && st'.heap == st.heap
      && st'.nextScope == st.nextScope && st'.invocations == st.invocations
    ensures st.nextValue <= st'.nextValue && v.id < st'.nextValue
    ensures Valid(st) ==> Valid(st')
  {
    var reg := ApplyAll(opts, Registration(t, None, Instance(v), Singleton, ""));
    LastOptionWins(opts, Registration(t, None, Instance(v), Singleton, ""));
    var key := Key(t, reg.name);
    st.(c := st.c.(registrations := st.c.registrations[key := reg], singletons := st.c.singletons[key := v]),
        nextValue := if v.id < st.nextValue then st.nextValue else v.id + 1)
  }

  /** The factory `RegisterType` synthesizes: no parameters, one result of
      the interface type, and a new implementation object on every call. */
  function TypeFactory(iface: TypeTag): (f: Factory)
    ensures ValidShape(f.sig) && |f.sig.params| == 0 && f.outcome == Produce
  {
    Factory(Signature(true, [], [iface], true, false), Produce)
  }

  /** `RegisterType`: never validates and always succeeds; otherwise like
      `Register` with the synthesized factory, recording `impl`. */
  function RegisterType(st: State, iface: TypeTag, impl: TypeTag, opts: seq<RegistrationOption>): (r: Registered)
    ensures r.err.None?
    ensures var key := Key(iface, LastName(opts, ""));
      && key in r.st.c.registrations
      && r.st.c.registrations[key].binding == Made(TypeFactory(iface))
      && r.st.c.registrations[key].impl == Some(impl)
      && r.st.c.registrations[key].lifetime == LastLifetime(opts, Transient)
      && OnlyRegistryAt(st, r.st, key, r.st.c.registrations[key])
    ensures Valid(st) ==> Valid(r.st)
  {
    var reg := ApplyAll(opts, Registration(iface, Some(impl), Made(TypeFactory(iface)), Transient, ""));
    LastOptionWins(opts, Registration(iface, Some(impl), Made(TypeFactory(iface)), Transient, ""));
    Registered(None, st.(c := st.c.(registrations := st.c.registrations[Key(iface, reg.name) := reg])))
  }

  /** `HasNamed`: in a well-formed container, whether a registration
      record for that type and name exists. */
  function HasNamed(st: State, t: TypeTag, name: string): (b: bool)
    ensures Valid(st) ==>
      (b <==> exists reg :: reg in st.c.registrations.Values && reg.target == t && reg.name == name)
  {
    Key(t, name) in st.c.registrations
  }

  /** `Has`: only the unnamed registration counts; a named registration of
      the type alone does not make it true. */
  function Has(st: State, t: TypeTag): (b: bool)
    ensures Valid(st) ==>
      (b <==> exists reg :: reg in st.c.registrations.Values && reg.target == t && reg.name == "")
  {
    HasNamed(st, t, "")
  }

  datatype ScopeCreated = ScopeCreated(scope: ScopeRef, st: State)

  /** `CreateScope`: allocates a new, empty scope with the given name and
      points the scope table's `name` entry at it; earlier scope objects and
      every other table entry stay as they were. */
  function CreateScope(st: State, name: string): (r: ScopeCreated)
    ensures Valid(st) ==> r.scope !in st.heap
    ensures r.st.heap == st.heap[r.scope := Scopes.NewScope(name)]
    ensures Scopes.Name(r.st.heap[r.scope]) == name
    ensures r.st.c.scopes == st.c.scopes[name := r.scope]
    ensures r.st.c.registrations == st.c.registrations && r.st.c.singletons == st.c.singletons
    ensures r.st.nextValue == st.nextValue && r.st.invocations == st.invocations
    ensures Valid(st) ==> Valid(r.st)
  {
    var s := st.nextScope;
    ScopeCreated(s, st.(c := st.c.(scopes := st.c.scopes[name := s]),
                        heap := st.heap[s := Scopes.NewScope(name)],
                        nextScope := s + 1))
  }

  /** `Clear`: the registry, the singleton cache and the scope table become
      empty. Scope objects callers still hold are not destroyed. */
  function Clear(st: State): (st': State)
    ensures forall t, n :: !HasNamed(st', t, n)
    ensures forall k :: k !in st'.c.singletons
    ensures forall n :: n !in st'.c.scopes
    ensures st'.heap == st.heap && st'.nextValue == st.nextValue && st'.invocations == st.invocations
    ensures Valid(st) ==> Valid(st')
  {
    st.(c := Container(map[], map[], map[]))
  }
}

=== FILE: errors.dfy ===
/** The container's error taxonomy, the messages its `Error()` methods
    format, and the chain of errors that repeated `Unwrap` visits. */
module Errors {
  import opened Wrappers
  import opened Tags

  /** The five error kinds of the container, plus `FactoryError`, which
      stands for whatever error a user factory returns as its second result. */
  datatype Error =
    | NotRegistered(typ: TypeTag)
    | CircularDependency(chain: seq<TypeTag>)
    | ResolutionFailed(typ: TypeTag, cause: Error)
    | InvalidFactory(typ: TypeTag, message: string)
    | ScopeNotFound(name: string)
    | FactoryError(message: string)

  const NotRegisteredPrefix := "di: type "
  const NotRegisteredSuffix := " is not registered"
  const CircularPrefix := "di: circular dependency detected: "
  const ChainSeparator := " -> "
  const ResolutionFailedPrefix := "di: failed to resolve "
  const InvalidFactoryPrefix := "di: invalid factory for "
  const ScopePrefix := "di: scope \""
  const ScopeSuffix := "\" not found"

  /** `strings.Join` of the type names with " -> ": a single type is its bare
      name, and the text starts with the first type's name and ends with the
      last one's. */
  function JoinNames(chain: seq<TypeTag>): (s: string)
    ensures |chain| == 0 ==> s == ""
    ensures |chain| == 1 ==> s == chain[0].name
    ensures |chain| >= 1 ==> chain[0].name <= s
    ensures |chain| >= 1 ==> IsSuffix(chain[|chain| - 1].name, s)
  {
    if |chain| == 0 then ""
    else if |chain| == 1 then chain[0].name
    else chain[0].name + ChainSeparator + JoinNames(chain[1..])
  }

  /** The text `Error()` returns for each kind. Every container error is
      marked with the package prefix; a factory's own error is printed as its
      own message, with no prefix added. */
  function Message(e: Error): (s: string)
    ensures !e.FactoryError? ==> "di: " <= s
    ensures e.FactoryError? ==> s == e.message
  {
    match e
    case NotRegistered(t) => NotRegisteredPrefix + t.name + NotRegisteredSuffix
    case CircularDependency(chain) => CircularPrefix + JoinNames(chain)
    case ResolutionFailed(t, cause) => ResolutionFailedPrefix + t.name + ": " + Message(cause)
    case InvalidFactory(t, m) => InvalidFactoryPrefix + t.name + ": " + m
    case ScopeNotFound(n) => ScopePrefix + n + ScopeSuffix
    case FactoryError(m) => m
  }

  /** `errors.Unwrap`: only `ResolutionFailed` has an `Unwrap` method, and
      what it yields is the error whose text ends the wrapper's text. */
  function Unwrap(e: Error): (r: Option<Error>)
    ensures r.Some? <==> e.ResolutionFailed?
    ensures r.Some? ==> IsSuffix(Message(r.value), Message(e))
  {
    if e.ResolutionFailed? then Some(e.cause) else None
  }

  /** The errors visited by repeatedly unwrapping `e`, starting with `e`
      itself. Its finiteness is the termination of the unwrap loop. */
  function UnwrapChain(e: Error): (r: seq<Error>)
    ensures |r| >= 1 && r[0] == e
    ensures Unwrap(r[|r| - 1]).None?
    ensures forall i :: 0 <= i < |r| - 1 ==> Unwrap(r[i]) == Some(r[i + 1])
  {
    match e
    case ResolutionFailed(_, cause) => [e] + UnwrapChain(cause)
    case _ => [e]
  }

  /** The innermost error: the one `Unwrap` can no longer look through. */
  function Root(e: Error): Error
  {
    var c := UnwrapChain(e);
    c[|c| - 1]
  }

  /** `target` is one of the errors repeated unwrapping visits: the chain
      `errors.As` searches by type. Go's `errors.Is` also compares with `==`,
      which never matches an `ErrCircularDependency` (it holds a slice), so
      this is chain membership, not `errors.Is`. */
  predicate OnUnwrapChain(e: Error, target: Error)
  {
    target in UnwrapChain(e)
  }

  /** The shapes of error the resolver can return: a missing registration, a
      cycle whose last type repeats an earlier one, or a `ResolutionFailed`
      around either a factory's own error or another resolver error. */
  predicate FromResolver(e: Error)
  {
    match e
    case NotRegistered(_) => true
    case CircularDependency(chain) => |chain| >= 2 && chain[|chain| - 1] in chain[..|chain| - 1]
    case ResolutionFailed(_, cause) => cause.FactoryError? || FromResolver(cause)
    case _ => false
  }

  predicate IsSuffix(s: string, t: string)
  {
    |s| <= |t| && t[|t| - |s|..] == s
  }

  /** Unwrapping a `ResolutionFailed` yields exactly its cause, and chain
      membership looks through the wrapper: it holds of the wrapper itself or
      of anything on the cause's chain. */
  lemma UnwrapYieldsCause(t: TypeTag, cause: Error, target: Error)
    ensures Unwrap(ResolutionFailed(t, cause)) == Some(cause)
    ensures OnUnwrapChain(ResolutionFailed(t, cause), target) <==> target == ResolutionFailed(t, cause) || OnUnwrapChain(cause, target)
  {
    assert UnwrapChain(ResolutionFailed(t, cause)) == [ResolutionFailed(t, cause)] + UnwrapChain(cause);
  }

  /** Repeated unwrapping of a resolver error ends at a missing registration,
      a detected cycle, or a factory's own error. */
  lemma {:induction false} ResolverErrorRoot(e: Error)
    requires FromResolver(e)
    ensures Root(e).NotRegistered? || Root(e).CircularDependency? || Root(e).FactoryError?
    ensures OnUnwrapChain(e, Root(e))
  {
    match e
    case ResolutionFailed(t, cause) =>
      assert UnwrapChain(e) == [e] + UnwrapChain(cause);
      if !cause.FactoryError? {
        ResolverErrorRoot(cause);
      }
    case _ =>
  }

  /** Each wrapping level appends the cause's message, so the message of any
      error ends with the message of its root. */
  lemma {:induction false} MessageEndsWithRoot(e: Error)
    ensures IsSuffix(Message(Root(e)), Message(e))
  {
    match e
    case ResolutionFailed(t, cause) =>
      assert UnwrapChain(e) == [e] + UnwrapChain(cause);
      assert Root(e) == Root(cause);
      MessageEndsWithRoot(cause);
      var p := ResolutionFailedPrefix + t.name + ": ";
      assert Message(e) == p + Message(cause);
    case _ =>
  }

  /** The not-registered message names the type: it can be read back from
      between the fixed prefix and suffix. */
  lemma NotRegisteredNamesType(t: TypeTag)
    ensures var m := Message(NotRegistered(t));
      |m| == |NotRegisteredPrefix| + |t.name| + |NotRegisteredSuffix| &&
      m[..|NotRegisteredPrefix|] == NotRegisteredPrefix &&
      m[|NotRegisteredPrefix|..|m| - |NotRegisteredSuffix|] == t.name &&
      IsSuffix(NotRegisteredSuffix, m)
  {
    var m := Message(NotRegistered(t));
    assert m == NotRegisteredPrefix + t.name + NotRegisteredSuffix;
  }

  /** The scope-not-found message is the scope name between the fixed
      prefix and suffix, so it can be read back from between the quotes. */
  lemma ScopeNotFoundNamesScope(n: string)
    ensures var m := Message(ScopeNotFound(n));
      |m| == |ScopePrefix| + |n| + |ScopeSuffix| &&
      m[..|ScopePrefix|] == ScopePrefix &&
      m[|ScopePrefix|..|m| - |ScopeSuffix|] == n &&
      IsSuffix(ScopeSuffix, m)
  {
    var m := Message(ScopeNotFound(n));
    assert m == ScopePrefix + n + ScopeSuffix;
  }

  /** The invalid-factory message is the prefix, the type name, ": " and the
      reason. */
  lemma InvalidFactoryNamesReason(t: TypeTag, reason: string)
    ensures var m := Message(InvalidFactory(t, reason));
      |m| == |InvalidFactoryPrefix| + |t.name| + 2 + |reason| &&
      m[..|InvalidFactoryPrefix|] == InvalidFactoryPrefix &&
      m[|InvalidFactoryPrefix|..|InvalidFactoryPrefix| + |t.name|] == t.name &&
      m[|InvalidFactoryPrefix| + |t.name|..|InvalidFactoryPrefix| + |t.name| + 2] == ": " &&
      IsSuffix(reason, m)
  {
    var m := Message(InvalidFactory(t, reason));
    assert m == InvalidFactoryPrefix + t.name + ": " + reason;
  }

  /** The resolution-failed message is the prefix, the name of the type that
      failed, ": " and the message of its cause. */
  lemma ResolutionFailedNamesCause(t: TypeTag, cause: Error)
    ensures var m := Message(ResolutionFailed(t, cause));
      |m| == |ResolutionFailedPrefix| + |t.name| + 2 + |Message(cause)| &&
      m[..|ResolutionFailedPrefix|] == ResolutionFailedPrefix &&
      m[|ResolutionFailedPrefix|..|ResolutionFailedPrefix| + |t.name|] == t.name &&
      m[|ResolutionFailedPrefix| + |t.name|..|ResolutionFailedPrefix| + |t.name| + 2] == ": " &&
      IsSuffix(Message(cause), m)
  {
    var m := Message(ResolutionFailed(t, cause));
    assert m == ResolutionFailedPrefix + t.name + ": " + Message(cause);
  }

  /** Joining a longer chain appends the separator and the new type's name. */
  lemma {:induction false} JoinNamesSnoc(chain: seq<TypeTag>, t: TypeTag)
    requires |chain| >= 1
    ensures JoinNames(chain + [t]) == JoinNames(chain) + ChainSeparator + t.name
  {
    if |chain| == 1 {
      assert (chain + [t])[1..] == [t];
    } else {
      assert (chain + [t])[1..] == chain[1..] + [t];
      JoinNamesSnoc(chain[1..], t);
    }
  }

  /** A cycle found while resolving `t` under `chain` is reported as the chain
      followed by " -> " and the name of the repeated type. */
  lemma CycleMessage(chain: seq<TypeTag>, t: TypeTag)
    requires |chain| >= 1
    ensures Message(CircularDependency(chain + [t])) == CircularPrefix + (JoinNames(chain) + ChainSeparator + t.name)
  {
    JoinNamesSnoc(chain, t);
    assert Message(CircularDependency(chain + [t])) == CircularPrefix + JoinNames(chain + [t]);
  }
}

=== FILE: lifetime.dfy ===
/** How long a resolved instance lives. Go's `Lifetime` is a named `int`, so
    any 64-bit value is a `Lifetime`; only the three constants are known. */
module Lifetimes {

  newtype Lifetime = x: int | -0x8000_0000_0000_0000 <= x < 0x8000_0000_0000_0000

  /** A new instance on every resolution. */
  const Transient: Lifetime := 0
  /** One instance for the whole container. */
  const Singleton: Lifetime := 1
  /** One instance per scope. */
  const Scoped: Lifetime := 2

  predicate Known(l: Lifetime)
  {
    l == Transient || l == Singleton || l == Scoped
  }

  /** `Lifetime.String`. */
  function Name(l: Lifetime): (s: string)
    ensures s == "Unknown" <==> !Known(l)
  {
    if l == Transient then "Transient"
    else if l == Singleton then "Singleton"
    else if l == Scoped then "Scoped"
    else "Unknown"
  }

  /** The constants are the first three values of the `iota` sequence, each
      printed under its own name, and `Name` tells them apart: distinct known
      lifetimes have distinct names. */
  lemma NameDistinguishesKnown(l: Lifetime, l': Lifetime)
    requires Known(l) && Known(l')
    ensures Name(l) == Name(l') <==> l == l'
    ensures Transient as int == 0 && Singleton as int == 1 && Scoped as int == 2
    ensures Name(Transient) == "Transient" && Name(Singleton) == "Singleton" && Name(Scoped) == "Scoped"
  {
    if l != l' {
      if l == Transient { assert Name(l)[0] == 'T'; }
      if l == Singleton { assert Name(l)[1] == 'i'; }
      if l == Scoped { assert Name(l)[1] == 'c'; }
      if l' == Transient { assert Name(l')[0] == 'T'; }
      if l' == Singleton { assert Name(l')[1] == 'i'; }
      if l' == Scoped { assert Name(l')[1] == 'c'; }
    }
  }
}

=== FILE: properties.dfy ===
/** Properties of resolution that relate several calls, or a call to the
    registrations and caches that govern it. */
module Properties {
  import opened Wrappers
  import opened Tags
  import opened Errors
  import opened Lifetimes
  import opened Registrations
  import opened Containers
  import opened Resolver
  import Scopes

  /** The registration under `key` is built by a factory, and neither the
      singleton cache nor the scope cache can answer for it. */
  predicate Uncached(st: State, key: Key, scope: Option<ScopeRef>)
    requires key in st.c.registrations
  {
    var reg := st.c.registrations[key];
    && reg.binding.Made?
    && !(reg.lifetime == Singleton && key in st.c.singletons)
    && !(reg.lifetime == Scoped && ScopeLookup(st, scope, key).Some?)
  }

  /** A lookup miss fails with `NotRegistered` before the cycle check, even
      when the type is already on the chain; no factory runs, nothing changes. */
  lemma MissingRegistrationFailsFirst(st: State, t: TypeTag, name: string, scope: Option<ScopeRef>, chain: seq<TypeTag>)
    requires Valid(st) && Key(t, name) !in st.c.registrations
    ensures Resolve(st, t, name, scope, chain) == Step(Err(NotRegistered(t)), st)
  {
  }

  /** A registered type already on the chain fails with the chain extended by
      that type, whose last element repeats an earlier one; nothing changes. */
  lemma CycleReportsChain(st: State, t: TypeTag, name: string, scope: Option<ScopeRef>, chain: seq<TypeTag>)
    requires Valid(st) && Key(t, name) in st.c.registrations && t in chain
    ensures var r := Resolve(st, t, name, scope, chain);
      && r == Step(Err(CircularDependency(chain + [t])), st)
      && exists i :: 0 <= i < |chain| && r.result.error.chain[i] == r.result.error.chain[|chain|]
  {
    var i :| 0 <= i < |chain| && chain[i] == t;
    assert (chain + [t])[i] == (chain + [t])[|chain|];
  }

  /** Two factories that need each other: resolving the first reports the
      cycle wrapped once per enclosing type, and the cycle error is still
      found by unwrapping. */
  lemma MutualDependencyReported(st: State, a: TypeTag, b: TypeTag, fa: Factory, fb: Factory)
    requires Valid(st) && a != b
    requires Key(a, "") in st.c.registrations && Key(b, "") in st.c.registrations
    requires st.c.registrations[Key(a, "")].binding == Made(fa) && fa.sig.params == [b]
    requires st.c.registrations[Key(b, "")].binding == Made(fb) && fb.sig.params == [a]
    requires Uncached(st, Key(a, ""), None) && Uncached(st, Key(b, ""), None)
    ensures var r := ResolveUnnamed(st, a);
      && r.result == Err(ResolutionFailed(a, ResolutionFailed(b, CircularDependency([a, b, a]))))
      && OnUnwrapChain(r.result.error, CircularDependency([a, b, a]))
      && Calls(r.st, Key(a, "")) == Calls(st, Key(a, "")) && Calls(r.st, Key(b, "")) == Calls(st, Key(b, ""))
  {
    var cyc := CircularDependency([a, b, a]);
    var eb := ResolutionFailed(b, cyc);
    var e := ResolutionFailed(a, eb);
    assert [] + [a] == [a];
    SecondOfCycleFails(st, a, b, fb);
    assert ResolveParams(st, [b], None, [a]) == Step(Err(eb), st);
    assert InvokeFactory(st, Key(a, ""), fa, None, [a]) == Step(Err(eb), st);
    assert Create(st, Key(a, ""), None, []) == Step(Err(e), st);
    assert ResolveUnnamed(st, a) == Step(Err(e), st);
    CycleOnUnwrapChain(a, b);
  }

  /** The inner step of `MutualDependencyReported`: under the chain `[a]`,
      resolving `b` runs into `a` again. */
  lemma SecondOfCycleFails(st: State, a: TypeTag, b: TypeTag, fb: Factory)
    requires Valid(st) && a != b
    requires Key(a, "") in st.c.registrations && Key(b, "") in st.c.registrations
    requires st.c.registrations[Key(b, "")].binding == Made(fb) && fb.sig.params == [a]
    requires Uncached(st, Key(b, ""), None)
    ensures Resolve(st, b, "", None, [a]) == Step(Err(ResolutionFailed(b, CircularDependency([a, b, a]))), st)
  {
    var cyc := CircularDependency([a, b, a]);
    assert [a] + [b] == [a, b];
    assert [a, b] + [a] == [a, b, a];
    assert Resolve(st, a, "", None, [a, b]) == Step(Err(cyc), st);
    assert ResolveParams(st, [a], None, [a, b]) == Step(Err(cyc), st);
    assert InvokeFactory(st, Key(b, ""), fb, None, [a, b]) == Step(Err(cyc), st);
    assert Create(st, Key(b, ""), None, [a]) == Step(Err(ResolutionFailed(b, cyc)), st);
  }

  lemma CycleOnUnwrapChain(a: TypeTag, b: TypeTag)
    ensures OnUnwrapChain(ResolutionFailed(a, ResolutionFailed(b, CircularDependency([a, b, a]))), CircularDependency([a, b, a]))
  {
    var cyc := CircularDependency([a, b, a]);
    var eb := ResolutionFailed(b, cyc);
    var e := ResolutionFailed(a, eb);
    assert UnwrapChain(cyc) == [cyc];
    assert UnwrapChain(eb) == [eb] + UnwrapChain(cyc);
    assert UnwrapChain(e) == [e] + UnwrapChain(eb);
  }

  /** An instance registration answers with its instance, whatever its
      lifetime, without calling any factory or touching any cache. */
  lemma InstanceShortCircuits(st: State, t: TypeTag, name: string, scope: Option<ScopeRef>, chain: seq<TypeTag>, v: Value)
    requires Valid(st) && Key(t, name) in st.c.registrations && t !in chain
    requires st.c.registrations[Key(t, name)].binding == Instance(v)
    ensures Resolve(st, t, name, scope, chain) == Step(Ok(v), st)
  {
  }

  /** After `RegisterInstance`, resolving its key returns exactly the
      registered instance and leaves the state as it is. */
  lemma RegisteredInstanceResolves(st: State, t: TypeTag, v: Value, opts: seq<RegistrationOption>, scope: Option<ScopeRef>)
    requires Valid(st)
    ensures var st' := RegisterInstance(st, t, v, opts);
      Resolve(st', t, LastName(opts, ""), scope, []) == Step(Ok(v), st')
  {
    var st' := RegisterInstance(st, t, v, opts);
    InstanceShortCircuits(st', t, LastName(opts, ""), scope, [], v);
  }

  /** The first successful resolution of an uncached singleton calls its
      factory exactly once and caches the result; from then on the cache
      answers with that same value, calls nothing and changes nothing. */
  lemma SingletonMadeOnce(st: State, t: TypeTag, name: string, scope: Option<ScopeRef>, scope2: Option<ScopeRef>)
    requires Valid(st) && Key(t, name) in st.c.registrations
    requires st.c.registrations[Key(t, name)].lifetime == Singleton
    requires Uncached(st, Key(t, name), scope)
    ensures var r1 := Resolve(st, t, name, scope, []);
      r1.result.Ok? ==>
      && Key(t, name) in r1.st.c.singletons && r1.st.c.singletons[Key(t, name)] == r1.result.value
      && Calls(r1.st, Key(t, name)) == Calls(st, Key(t, name)) + 1
      && Resolve(r1.st, t, name, scope2, []) == Step(Ok(r1.result.value), r1.st)
  {
    var key := Key(t, name);
    var f := st.c.registrations[key].binding.factory;
    var made := InvokeFactory(st, key, f, scope, [t]);
    assert [] + [t] == [t];
    assert Resolve(st, t, name, scope, []) == Create(st, key, scope, []);
    if made.result.Ok? {
      assert Resolve(st, t, name, scope, []) == Step(made.result, Store(made.st, key, Singleton, scope, made.result.value));
    }
  }

  /** Once a singleton is cached, resolving it (under any chain that does not
      already hold its type, in any scope) returns the cached value and
      changes nothing, so the value persists until `Clear`. */
  lemma SingletonCacheAnswers(st: State, t: TypeTag, name: string, scope: Option<ScopeRef>, chain: seq<TypeTag>)
    requires Valid(st) && Key(t, name) in st.c.registrations && t !in chain
    requires st.c.registrations[Key(t, name)].binding.Made?
    requires st.c.registrations[Key(t, name)].lifetime == Singleton
    requires Key(t, name) in st.c.singletons
    ensures Resolve(st, t, name, scope, chain) == Step(Ok(st.c.singletons[Key(t, name)]), st)
  {
  }

  /** A resolution never drops or overwrites a cached singleton: a value
      cached before is still cached, unchanged, afterwards. */
  lemma SingletonSurvivesResolution(st: State, key: Key, t: TypeTag, name: string, scope: Option<ScopeRef>, chain: seq<TypeTag>)
    requires Valid(st) && key in st.c.singletons
    ensures var r := Resolve(st, t, name, scope, chain);
      key in r.st.c.singletons && r.st.c.singletons[key] == st.c.singletons[key]
  {
  }

  /** A scoped registration resolved in a scope whose cache misses calls the
      factory once and caches the value in that scope only; resolving again
      in the same scope returns the same value and calls nothing. */
  lemma ScopedCachedPerScope(st: State, t: TypeTag, s: ScopeRef)
    requires Valid(st) && Key(t, "") in st.c.registrations && s in st.heap
    requires st.c.registrations[Key(t, "")].lifetime == Scoped
    requires Uncached(st, Key(t, ""), Some(s))
    ensures var r1 := ResolveInScope(st, t, Some(s));
      r1.result.Ok? ==>
      && Scopes.Get(r1.st.heap[s], Key(t, "")) == Some(r1.result.value)
      && Calls(r1.st, Key(t, "")) == Calls(st, Key(t, "")) + 1
      && (Key(t, "") in r1.st.c.singletons <==> Key(t, "") in st.c.singletons)
      && st.nextValue <= r1.result.value.id < r1.st.nextValue
      && ResolveInScope(r1.st, t, Some(s)) == Step(Ok(r1.result.value), r1.st)
  {
    var key := Key(t, "");
    var f := st.c.registrations[key].binding.factory;
    var made := InvokeFactory(st, key, f, Some(s), [t]);
    assert [] + [t] == [t];
    assert ResolveInScope(st, t, Some(s)) == Create(st, key, Some(s), []);
    if made.result.Ok? {
      assert ResolveInScope(st, t, Some(s)) == Step(made.result, Store(made.st, key, Scoped, Some(s), made.result.value));
    }
  }

  /** Two distinct scopes get distinct instances of a scoped registration,
      and the factory runs once for each. */
  lemma ScopedDistinctAcrossScopes(st: State, t: TypeTag, s1: ScopeRef, s2: ScopeRef)
    requires Valid(st) && s1 != s2 && s1 in st.heap && s2 in st.heap
    requires Key(t, "") in st.c.registrations
    requires st.c.registrations[Key(t, "")].lifetime == Scoped
    requires Uncached(st, Key(t, ""), Some(s1)) && Uncached(st, Key(t, ""), Some(s2))
    ensures var r1 := ResolveInScope(st, t, Some(s1));
      var r2 := ResolveInScope(r1.st, t, Some(s2));
      r1.result.Ok? && r2.result.Ok? ==>
      && r1.result.value != r2.result.value
      && Calls(r2.st, Key(t, "")) == Calls(st, Key(t, "")) + 2
  {
    var key := Key(t, "");
    var r1 := ResolveInScope(st, t, Some(s1));
    ScopedCachedPerScope(st, t, s1);
    assert r1.st.heap[s2] == st.heap[s2];
    assert ScopeLookup(r1.st, Some(s2), key) == ScopeLookup(st, Some(s2), key);
    assert Uncached(r1.st, key, Some(s2));
    ScopedCachedPerScope(r1.st, t, s2);
  }

  /** Transient registrations, scoped ones resolved without a scope, and
      registrations with a lifetime outside the three constants never write
      any cache under their key, and call the factory on every successful
      resolution, each time producing an object the container did not hold
      before: no cached singleton, scope entry or registered instance. */
  lemma UncachedLifetimeCallsEveryTime(st: State, t: TypeTag, name: string, scope: Option<ScopeRef>, chain: seq<TypeTag>)
    requires Valid(st) && Key(t, name) in st.c.registrations && t !in chain
    requires st.c.registrations[Key(t, name)].binding.Made?
    requires st.c.registrations[Key(t, name)].lifetime != Singleton
    requires st.c.registrations[Key(t, name)].lifetime == Scoped ==> scope.None?
    ensures var r := Resolve(st, t, name, scope, chain);
      && (Key(t, name) in r.st.c.singletons <==> Key(t, name) in st.c.singletons)
      && (forall s :: s in st.heap ==> (Key(t, name) in r.st.heap[s].instances <==> Key(t, name) in st.heap[s].instances))
      && (r.result.Ok? ==>
            && Calls(r.st, Key(t, name)) == Calls(st, Key(t, name)) + 1
            && st.nextValue <= r.result.value.id < r.st.nextValue
            && !Stored(st, r.result.value))
  {
    var r := Resolve(st, t, name, scope, chain);
    assert r == Create(st, Key(t, name), scope, chain);
    CreateUncached(st, Key(t, name), scope, chain);
    if r.result.Ok? {
      FreshIsNotStored(st, r.result.value);
    }
  }

  /** `UncachedLifetimeCallsEveryTime` past the cache lookups: the state
      is the factory call's, so no cache gains `key` and a success called
      the factory once. */
  lemma CreateUncached(st: State, key: Key, scope: Option<ScopeRef>, chain: seq<TypeTag>)
    requires Valid(st) && key in st.c.registrations && key.typ !in chain
    requires st.c.registrations[key].binding.Made?
    requires st.c.registrations[key].lifetime != Singleton
    requires st.c.registrations[key].lifetime == Scoped ==> scope.None?
    ensures var r := Create(st, key, scope, chain);
      && (key in r.st.c.singletons <==> key in st.c.singletons)
      && (forall s :: s in st.heap ==> (key in r.st.heap[s].instances <==> key in st.heap[s].instances))
      && (r.result.Ok? ==> Calls(r.st, key) == Calls(st, key) + 1)
  {
    var reg := st.c.registrations[key];
    var made := InvokeFactory(st, key, reg.binding.factory, scope, chain + [key.typ]);
    if made.result.Ok? {
      assert Store(made.st, key, reg.lifetime, scope, made.result.value) == made.st;
    }
    assert Create(st, key, scope, chain).st == made.st;
    EvolvesKeepsChainKeyAbsent(st, made.st, chain + [key.typ], scope, key);
    InvokeFactoryRunsIffParamsResolve(st, key, reg.binding.factory, scope, chain + [key.typ]);
  }

  /** A resolution under `chain` caches nothing whose type is on `chain`. */
  lemma EvolvesKeepsChainKeyAbsent(a: State, b: State, chain: seq<TypeTag>, scope: Option<ScopeRef>, key: Key)
    requires Evolves(a, b, chain, scope) && key.typ in chain
    ensures key in b.c.singletons <==> key in a.c.singletons
    ensures forall s :: s in a.heap ==> (key in b.heap[s].instances <==> key in a.heap[s].instances)
  {
  }

  /** Two successful resolutions of a transient registration call its
      factory twice and return two different objects. */
  lemma TransientFreshEachTime(st: State, t: TypeTag)
    requires Valid(st) && Key(t, "") in st.c.registrations
    requires st.c.registrations[Key(t, "")].binding.Made?
    requires st.c.registrations[Key(t, "")].lifetime == Transient
    ensures var r1 := ResolveUnnamed(st, t);
      var r2 := ResolveUnnamed(r1.st, t);
      r1.result.Ok? && r2.result.Ok? ==>
      && r1.result.value != r2.result.value
      && Calls(r2.st, Key(t, "")) == Calls(st, Key(t, "")) + 2
  {
    var r1 := ResolveUnnamed(st, t);
    UncachedLifetimeCallsEveryTime(st, t, "", None, []);
    UncachedLifetimeCallsEveryTime(r1.st, t, "", None, []);
  }

  /** A failed resolution of a registered type is a `ResolutionFailed` for
      that type and caches nothing under its key, in any cache. */
  lemma FailureWrapsAndCachesNothing(st: State, t: TypeTag, name: string, scope: Option<ScopeRef>, chain: seq<TypeTag>)
    requires Valid(st) && Key(t, name) in st.c.registrations && t !in chain
    ensures var r := Resolve(st, t, name, scope, chain);
      r.result.Err? ==>
      && r.result.error.ResolutionFailed? && r.result.error.typ == t
      && (Key(t, name) in r.st.c.singletons <==> Key(t, name) in st.c.singletons)
      && (forall s :: s in st.heap ==> (Key(t, name) in r.st.heap[s].instances <==> Key(t, name) in st.heap[s].instances))
  {
    assert t in chain + [t];
  }

  /** Once every parameter has resolved, a factory whose error result is
      non-nil makes the resolution fail with that error wrapped in
      `ResolutionFailed`; the factory did run, once, and unwrapping reaches
      its error. */
  lemma FactoryErrorWrapped(st: State, t: TypeTag, name: string, scope: Option<ScopeRef>, chain: seq<TypeTag>, f: Factory, m: string)
    requires Valid(st) && Key(t, name) in st.c.registrations && t !in chain
    requires st.c.registrations[Key(t, name)].binding == Made(f) && Uncached(st, Key(t, name), scope)
    requires |f.sig.outs| == 2 && f.outcome == Fail(m)
    ensures var r := Resolve(st, t, name, scope, chain);
      ResolveParams(st, f.sig.params, scope, chain + [t]).result.Ok? ==>
      && r.result == Err(ResolutionFailed(t, FactoryError(m)))
      && OnUnwrapChain(r.result.error, FactoryError(m))
      && Calls(r.st, Key(t, name)) == Calls(st, Key(t, name)) + 1
  {
    var key := Key(t, name);
    var made := InvokeFactory(st, key, f, scope, chain + [t]);
    assert Resolve(st, t, name, scope, chain) == Create(st, key, scope, chain);
    if ResolveParams(st, f.sig.params, scope, chain + [t]).result.Ok? {
      assert made.result == Err(FactoryError(m));
      UnwrapYieldsCause(t, FactoryError(m), FactoryError(m));
    }
  }

  /** The first failing parameter aborts the invocation: when parameters
      `0 .. i-1` resolve and parameter `i` fails, the resolution fails with
      that parameter's error wrapped for the type being resolved, in the
      state the failing parameter left, and the type's factory is not
      called. */
  lemma ParameterFailureAborts(st: State, t: TypeTag, name: string, scope: Option<ScopeRef>, chain: seq<TypeTag>, f: Factory, i: nat)
    requires Valid(st) && Key(t, name) in st.c.registrations && t !in chain
    requires st.c.registrations[Key(t, name)].binding == Made(f) && Uncached(st, Key(t, name), scope)
    requires i < |f.sig.params|
    ensures var pre := ResolveParams(st, f.sig.params[..i], scope, chain + [t]);
      var one := Resolve(pre.st, f.sig.params[i], "", scope, chain + [t]);
      var r := Resolve(st, t, name, scope, chain);
      pre.result.Ok? && one.result.Err? ==>
      && r == Step(Err(ResolutionFailed(t, one.result.error)), one.st)
      && Calls(r.st, Key(t, name)) == Calls(st, Key(t, name))
  {
    var key := Key(t, name);
    ResolveParamsInOrder(st, f.sig.params, i, scope, chain + [t]);
    var made := InvokeFactory(st, key, f, scope, chain + [t]);
    assert Resolve(st, t, name, scope, chain) == Create(st, key, scope, chain);
  }

  /** Every error a top-level resolution returns unwraps, in finitely many
      steps, to a missing registration, a cycle, or a factory's own error. */
  lemma ResolutionErrorsBottomOut(st: State, t: TypeTag, name: string, scope: Option<ScopeRef>)
    requires Valid(st)
    ensures var r := Resolve(st, t, name, scope, []);
      r.result.Err? ==>
      && (Root(r.result.error).NotRegistered? || Root(r.result.error).CircularDependency? || Root(r.result.error).FactoryError?)
      && OnUnwrapChain(r.result.error, Root(r.result.error))
  {
    var r := Resolve(st, t, name, scope, []);
    if r.result.Err? {
      ResolverErrorRoot(r.result.error);
    }
  }

  /** Re-registering a key as a singleton never evicts its cached singleton:
      the stale value keeps being served and the new factory is not called. */
  lemma ReRegisterKeepsStaleSingleton(st: State, t: TypeTag, f: Factory, name: string)
    requires Valid(st) && ValidShape(f.sig)
    requires Key(t, name) in st.c.singletons
    ensures var st' := Register(st, t, f, [AsSingleton(), WithName(name)]).st;
      && st'.c.registrations[Key(t, name)].binding == Made(f)
      && Resolve(st', t, name, None, []) == Step(Ok(st.c.singletons[Key(t, name)]), st')
  {
    var opts := [AsSingleton(), WithName(name)];
    assert opts[..1] == [AsSingleton()] && opts[..1][..0] == [];
    assert LastName(opts, "") == name;
    assert LastLifetime(opts, Transient) == Singleton;
    var st' := Register(st, t, f, opts).st;
    SingletonCacheAnswers(st', t, name, None, []);
  }

  /** Registering under one name leaves every other name of the same type as
      it was, so the unnamed key stays distinct from each named one. */
  lemma NamedRegistrationsIndependent(st: State, t: TypeTag, f: Factory, n: string, other: string)
    requires ValidShape(f.sig) && n != other
    ensures var st' := Register(st, t, f, [WithName(n)]).st;
      && HasNamed(st', t, n)
      && HasNamed(st', t, other) == HasNamed(st, t, other)
      && (HasNamed(st, t, other) ==> st'.c.registrations[Key(t, other)] == st.c.registrations[Key(t, other)])
  {
    assert LastName([WithName(n)], "") == n;
  }

  /** Only named registrations exist in an otherwise empty container: the
      unnamed resolution fails with `NotRegistered`. */
  lemma UnnamedMissingBesideNamed(t: TypeTag, f: Factory, n: string)
    requires ValidShape(f.sig) && n != ""
    ensures var st := Register(New(), t, f, [WithName(n)]).st;
      && HasNamed(st, t, n)
      && ResolveUnnamed(st, t).result == Err(NotRegistered(t))
  {
    NamedRegistrationsIndependent(New(), t, f, n, "");
  }

  /** After `Clear`, every resolution fails with `NotRegistered`; a singleton
      registered anew is built by a new factory call, as an object that is
      none of the objects the container held before the clear. */
  lemma ClearForgetsEverything(st: State, t: TypeTag, f: Factory)
    requires Valid(st) && ValidShape(f.sig)
    ensures forall u, n :: ResolveNamed(Clear(st), u, n).result == Err(NotRegistered(u))
    ensures var st' := Register(Clear(st), t, f, [AsSingleton()]).st;
      var r := ResolveUnnamed(st', t);
      r.result.Ok? ==>
        && Calls(r.st, Key(t, "")) == Calls(st, Key(t, "")) + 1
        && !Stored(st, r.result.value)
        && Key(t, "") in r.st.c.singletons && r.st.c.singletons[Key(t, "")] == r.result.value
  {
    var opts := [AsSingleton()];
    assert opts[..0] == [];
    assert LastName(opts, "") == "";
    assert LastLifetime(opts, Transient) == Singleton;
    var st' := Register(Clear(st), t, f, opts).st;
    SingletonMadeOnce(st', t, "", None, None);
    UncachedValueIsFresh(st', t, "", None);
    var r := ResolveUnnamed(st', t);
    if r.result.Ok? {
      FreshIsNotStored(st, r.result.value);
    }
  }

  /** A value made by an uncached resolution is a newly allocated object:
      none of the objects the container held before. */
  lemma UncachedValueIsFresh(st: State, t: TypeTag, name: string, scope: Option<ScopeRef>)
    requires Valid(st) && Key(t, name) in st.c.registrations && Uncached(st, Key(t, name), scope)
    ensures var r := Resolve(st, t, name, scope, []);
      r.result.Ok? ==> st.nextValue <= r.result.value.id < r.st.nextValue && !Stored(st, r.result.value)
  {
    var key := Key(t, name);
    var r := Resolve(st, t, name, scope, []);
    assert r == Create(st, key, scope, []);
    if r.result.Ok? {
      FreshIsNotStored(st, r.result.value);
    }
  }

  /** The container's public operations, as a caller issues them. */
  datatype Op =
    | RegisterOp(t: TypeTag, f: Factory, opts: seq<RegistrationOption>)
    | RegisterInstanceOp(t: TypeTag, v: Value, opts: seq<RegistrationOption>)
    | RegisterTypeOp(iface: TypeTag, impl: TypeTag, opts: seq<RegistrationOption>)
    | CreateScopeOp(name: string)
    | ResolveOp(t: TypeTag, name: string, scope: Option<ScopeRef>)
    | ClearOp

  /** The state one operation leaves; it stays well formed. */
  function Perform(st: State, op: Op): (r: State)
    requires Valid(st)
    ensures Valid(r)
    ensures forall s :: s in st.heap ==> s in r.heap && Scopes.Name(r.heap[s]) == Scopes.Name(st.heap[s])
  {
    match op
    case RegisterOp(t, f, opts) => Register(st, t, f, opts).st
    case RegisterInstanceOp(t, v, opts) => RegisterInstance(st, t, v, opts)
    case RegisterTypeOp(iface, impl, opts) => RegisterType(st, iface, impl, opts).st
    case CreateScopeOp(name) => CreateScope(st, name).st
    case ResolveOp(t, name, scope) => Resolve(st, t, name, scope, []).st
    case ClearOp => Clear(st)
  }

  /** The state a sequence of operations leaves, applied in order. */
  function Run(st: State, ops: seq<Op>): (r: State)
    requires Valid(st)
    ensures Valid(r)
    decreases |ops|
  {
    if |ops| == 0 then st else Perform(Run(st, ops[..|ops| - 1]), ops[|ops| - 1])
  }

  /** Every state a caller can reach from `New` is well formed: in
      particular every factory `resolve` can reach passed `validateFactory`,
      so it returns one or two results and `invokeFactory`'s zero-result
      branch is never taken. */
  lemma ReachableFactoriesReturnValue(ops: seq<Op>, k: Key)
    ensures var st := Run(New(), ops);
      k in st.c.registrations && st.c.registrations[k].binding.Made? ==>
        && ValidShape(st.c.registrations[k].binding.factory.sig)
        && 1 <= |st.c.registrations[k].binding.factory.sig.outs| <= 2
  {
  }

  /** A scope object keeps the name it was created with through any later
      sequence of operations, including `Clear` and a new scope of the same
      name. */
  lemma {:induction false} ScopeKeepsName(st: State, ops: seq<Op>, s: ScopeRef)
    requires Valid(st) && s in st.heap
    ensures s in Run(st, ops).heap && Scopes.Name(Run(st, ops).heap[s]) == Scopes.Name(st.heap[s])
    decreases |ops|
  {
    if |ops| > 0 {
      ScopeKeepsName(st, ops[..|ops| - 1], s);
    }
  }
}

=== FILE: registration.dfy ===
/** The registration record, its key, and the options that configure it. */
module Registrations {
  import opened Wrappers
  import opened Tags
  import opened Lifetimes

  /** `registrationKey`: a type plus a name, "" for unnamed registrations.
      Equality is structural on both fields. */
  datatype Key = Key(typ: TypeTag, name: string)

  /** What reflection reports about a factory: whether it is a function at
      all, its parameter types in declaration order, its result types, whether
      the first result is assignable to the registered type and whether the
      second implements `error`. A second result is taken to be of a nil-able
      kind (an interface or a pointer), so checking it for nil never panics. */
  datatype Signature = Signature(
    isFunc: bool,
    params: seq<TypeTag>,
    outs: seq<TypeTag>,
    firstAssignable: bool,
    secondIsError: bool)

  /** What calling the factory does: build a new object, or (through a
      second, error-typed result) report an error. */
  datatype Outcome = Produce | Fail(message: string)

  datatype Factory = Factory(sig: Signature, outcome: Outcome)

  /** A registration is built either from a factory (`Register`,
      `RegisterType`) or from a pre-built instance (`RegisterInstance`). */
  datatype Binding = Made(factory: Factory) | Instance(value: Value)

  /** `registration`. `impl` is the implementation type `RegisterType` records. */
  datatype Registration = Registration(
    target: TypeTag,
    impl: Option<TypeTag>,
    binding: Binding,
    lifetime: Lifetime,
    name: string)

  /** A `RegistrationOption`: each one writes exactly one field. */
  datatype RegistrationOption = SetLifetime(lifetime: Lifetime) | SetName(name: string)

  /** Running one option against a registration. */
  function Apply(opt: RegistrationOption, reg: Registration): Registration
  {
    match opt
    case SetLifetime(l) => reg.(lifetime := l)
    case SetName(n) => reg.(name := n)
  }

  /** The option loop of `Register`, `RegisterInstance` and `RegisterType`. */
  function ApplyAll(opts: seq<RegistrationOption>, reg: Registration): (r: Registration)
    ensures r.target == reg.target && r.impl == reg.impl && r.binding == reg.binding
    decreases |opts|
  {
    if |opts| == 0 then reg else ApplyAll(opts[1..], Apply(opts[0], reg))
  }

  function WithLifetime(l: Lifetime): (o: RegistrationOption)
    ensures forall reg :: Apply(o, reg) == reg.(lifetime := l)
  {
    SetLifetime(l)
  }

  function AsSingleton(): (o: RegistrationOption)
    ensures forall reg :: Apply(o, reg) == reg.(lifetime := Singleton)
  {
    SetLifetime(Singleton)
  }

  function AsTransient(): (o: RegistrationOption)
    ensures forall reg :: Apply(o, reg) == reg.(lifetime := Transient)
  {
    SetLifetime(Transient)
  }

  function AsScoped(): (o: RegistrationOption)
    ensures forall reg :: Apply(o, reg) == reg.(lifetime := Scoped)
  {
    SetLifetime(Scoped)
  }

  function WithName(n: string): (o: RegistrationOption)
    ensures forall reg :: Apply(o, reg) == reg.(name := n)
  {
    SetName(n)
  }

  /** The lifetime the last lifetime option in `opts` names, or `default`
      when there is none. */
  function LastLifetime(opts: seq<RegistrationOption>, default: Lifetime): Lifetime
  {
    if |opts| == 0 then default
    else if opts[|opts| - 1].SetLifetime? then opts[|opts| - 1].lifetime
    else LastLifetime(opts[..|opts| - 1], default)
  }

  /** The name the last name option in `opts` gives, or `default`. */
  function LastName(opts: seq<RegistrationOption>, default: string): string
  {
    if |opts| == 0 then default
    else if opts[|opts| - 1].SetName? then opts[|opts| - 1].name
    else LastName(opts[..|opts| - 1], default)
  }

  lemma {:induction false} ApplyAllSnoc(opts: seq<RegistrationOption>, o: RegistrationOption, reg: Registration)
    ensures ApplyAll(opts + [o], reg) == Apply(o, ApplyAll(opts, reg))
    decreases |opts|
  {
    if |opts| > 0 {
      assert (opts + [o])[1..] == opts[1..] + [o];
      ApplyAllSnoc(opts[1..], o, Apply(opts[0], reg));
    }
  }

  /** Options run in order after the defaults, so the last lifetime option
      and the last name option win, and nothing else changes. */
  lemma {:induction false} LastOptionWins(opts: seq<RegistrationOption>, reg: Registration)
    ensures ApplyAll(opts, reg) == reg.(lifetime := LastLifetime(opts, reg.lifetime), name := LastName(opts, reg.name))
    decreases |opts|
  {
    if |opts| > 0 {
      var init := opts[..|opts| - 1];
      assert opts == init + [opts[|opts| - 1]];
      ApplyAllSnoc(init, opts[|opts| - 1], reg);
      LastOptionWins(init, reg);
    }
  }
}

=== FILE: resolver.dfy ===
/** The recursive resolver: registry lookup, cycle detection over the chain
    of types being resolved, the instance short-circuit, the singleton and
    scope caches, and factory invocation with parameters resolved first. */
module Resolver {
  import opened Wrappers
  import opened Tags
  import opened Errors
  import opened Lifetimes
  import opened Registrations
  import opened Containers
  import Scopes

  /** A Go `(value, error)` return together with the state it leaves. */
  datatype Step<T> = Step(result: Result<T, Error>, st: State)

  function RegisteredTypes(regs: map<Key, Registration>): set<TypeTag>
  {
    set k | k in regs :: k.typ
  }

  /** Registered types not yet on the chain. Every recursive resolution that
      gets past the cycle check puts one more of them on the chain, so this
      set shrinks and resolution terminates. */
  function Pending(st: State, chain: seq<TypeTag>): set<TypeTag>
  {
    RegisteredTypes(st.c.registrations) - (set x | x in chain)
  }

  lemma PendingShrinks(st: State, chain: seq<TypeTag>, t: TypeTag, name: string)
    requires Key(t, name) in st.c.registrations && t !in chain
    ensures Pending(st, chain + [t]) < Pending(st, chain)
  {
    assert t in RegisteredTypes(st.c.registrations);
    assert t in Pending(st, chain);
    assert t !in Pending(st, chain + [t]);
  }

  /** Cache `b` keeps every entry of `a` and adds entries only for types
      outside `chain`. */
  predicate CacheExtends(a: map<Key, Value>, b: map<Key, Value>, chain: seq<TypeTag>)
  {
    && (forall k :: k in a ==> k in b && b[k] == a[k])
    && (forall k :: k in b && k !in a ==> k.typ !in chain)
  }

  /** What a resolution under `chain` in `scope` may do to the state: the
      registry, the scope table and the scope objects' names stay fixed;
      the singleton cache and the cache of `scope` only gain entries, and
      only for types outside `chain`; every other scope is untouched; object
      identities are only ever allocated. */
  predicate Evolves(a: State, b: State, chain: seq<TypeTag>, scope: Option<ScopeRef>)
  {
    && b.c.registrations == a.c.registrations
    && b.c.scopes == a.c.scopes
    && b.nextScope == a.nextScope
    && a.nextValue <= b.nextValue
    && CacheExtends(a.c.singletons, b.c.singletons, chain)
    && b.heap.Keys == a.heap.Keys
    && (forall r :: r in a.heap ==>
          && b.heap[r].name == a.heap[r].name
          && (if scope == Some(r) then CacheExtends(a.heap[r].instances, b.heap[r].instances, chain)
              else b.heap[r] == a.heap[r]))
  }

  /** Call counters only grow, and not at all for keys whose type is on `chain`. */
  ghost predicate CallsFramed(a: State, b: State, chain: seq<TypeTag>)
  {
    && (forall k :: Calls(a, k) <= Calls(b, k))
    && (forall k: Key :: k.typ in chain ==> Calls(b, k) == Calls(a, k))
  }

  /** A factory call for `key` under `chain + [key.typ]` leaves the counters
      of `chain`'s types alone, since `key.typ` is not on `chain`. */
  lemma CallsFramedOffKey(a: State, b: State, key: Key, chain: seq<TypeTag>)
    requires key.typ !in chain
    requires forall k :: Calls(a, k) <= Calls(b, k)
    requires forall k: Key :: k.typ in chain + [key.typ] && k != key ==> Calls(b, k) == Calls(a, k)
    ensures CallsFramed(a, b, chain)
  {
  }

  lemma CallsFramedSameCounters(a: State, b: State, c: State, chain: seq<TypeTag>)
    requires CallsFramed(a, b, chain) && c.invocations == b.invocations
    ensures CallsFramed(a, c, chain)
  {
  }

  lemma EvolvesTrans(a: State, b: State, c: State, chain: seq<TypeTag>, scope: Option<ScopeRef>)
    requires Evolves(a, b, chain, scope) && Evolves(b, c, chain, scope)
    ensures Evolves(a, c, chain, scope)
  {
  }

  lemma EvolvesNarrow(a: State, b: State, chain: seq<TypeTag>, t: TypeTag, scope: Option<ScopeRef>)
    requires Evolves(a, b, chain + [t], scope)
    ensures Evolves(a, b, chain, scope)
  {
  }

  /** `scope.get(key)` behind a possibly nil scope pointer. */
  function ScopeLookup(st: State, scope: Option<ScopeRef>, key: Key): Option<Value>
  {
    if scope.Some? && scope.value in st.heap then Scopes.Get(st.heap[scope.value], key) else None
  }

  /** The `switch reg.lifetime` that caches a newly made instance: a
      singleton lands in the container's cache, a scoped instance in the
      given scope's cache when there is one, and anything else nowhere. */
  function Store(st: State, key: Key, lifetime: Lifetime, scope: Option<ScopeRef>, v: Value): (r: State)
    ensures lifetime == Singleton ==>
      && key in r.c.singletons && r.c.singletons[key] == v
      && (forall k :: k != key ==> (k in r.c.singletons <==> k in st.c.singletons))
      && (forall k :: k != key && k in st.c.singletons ==> r.c.singletons[k] == st.c.singletons[k])
      && r.c.registrations == st.c.registrations && r.c.scopes == st.c.scopes && r.heap == st.heap
    ensures lifetime == Scoped && scope.Some? && scope.value in st.heap ==>
      && r.c == st.c && r.heap.Keys == st.heap.Keys
      && ScopeLookup(r, scope, key) == Some(v)
      && (forall k :: k != key ==> ScopeLookup(r, scope, k) == ScopeLookup(st, scope, k))
      && Scopes.Name(r.heap[scope.value]) == Scopes.Name(st.heap[scope.value])
      && (forall s :: s in st.heap && s != scope.value ==> r.heap[s] == st.heap[s])
    ensures lifetime != Singleton && !(lifetime == Scoped && scope.Some? && scope.value in st.heap) ==> r == st
    ensures r.c.registrations == st.c.registrations && r.nextValue == st.nextValue && r.invocations == st.invocations
    ensures Valid(st) && v.id < st.nextValue ==> Valid(r)
  {
    if lifetime == Singleton then st.(c := st.c.(singletons := st.c.singletons[key := v]))
    else if lifetime == Scoped && scope.Some? && scope.value in st.heap then
      st.(heap := st.heap[scope.value := Scopes.Set(st.heap[scope.value], key, v)])
    else st
  }

  lemma StoreEvolves(st: State, key: Key, lifetime: Lifetime, scope: Option<ScopeRef>, v: Value, chain: seq<TypeTag>)
    requires key.typ !in chain
    requires lifetime == Singleton ==> key !in st.c.singletons
    requires lifetime == Scoped && scope.Some? && scope.value in st.heap ==> key !in st.heap[scope.value].instances
    ensures Evolves(st, Store(st, key, lifetime, scope, v), chain, scope)
  {
  }

  /** Whether a factory invocation reached the call of the factory itself:
      parameter failures never surface as a bare factory error. */
  predicate FactoryRan(res: Result<Value, Error>)
  {
    res.Ok? || res.error.FactoryError?
  }

  /** The container's `resolve(targetType, name, scope, chain)`. */
  function Resolve(st: State, t: TypeTag, name: string, scope: Option<ScopeRef>, chain: seq<TypeTag>): (r: Step<Value>)
    requires Valid(st)
    ensures Valid(r.st)
    ensures r.result.Ok? ==> r.result.value.id < r.st.nextValue
    ensures Evolves(st, r.st, chain, scope)
    ensures r.result.Err? ==> Evolves(st, r.st, chain + [t], scope)
    ensures CallsFramed(st, r.st, chain)
    ensures r.result.Err? ==> FromResolver(r.result.error)
    decreases Pending(st, chain), 1
  {
    var key := Key(t, name);
    if key !in st.c.registrations then Step(Err(NotRegistered(t)), st)
    else if t in chain then
      assert (chain + [t])[..|chain|] == chain;
      Step(Err(CircularDependency(chain + [t])), st)
    else
      var reg := st.c.registrations[key];
      match reg.binding
      case Instance(v) => Step(Ok(v), st)
      case Made(f) =>
        if reg.lifetime == Singleton && key in st.c.singletons then Step(Ok(st.c.singletons[key]), st)
        else if reg.lifetime == Scoped && ScopeLookup(st, scope, key).Some? then
          assert st.heap[scope.value].instances[key] == ScopeLookup(st, scope, key).value;
          Step(Ok(ScopeLookup(st, scope, key).value), st)
        else Create(st, key, scope, chain)
  }

  /** The part of `resolve` past the caches: invoke the factory under the
      chain extended by the type, wrap a failure in `ResolutionFailed`, and
      cache a success according to the lifetime. */
  function Create(st: State, key: Key, scope: Option<ScopeRef>, chain: seq<TypeTag>): (r: Step<Value>)
    requires Valid(st) && key in st.c.registrations && key.typ !in chain
    requires st.c.registrations[key].binding.Made?
    requires st.c.registrations[key].lifetime == Singleton ==> key !in st.c.singletons
    requires st.c.registrations[key].lifetime == Scoped ==> ScopeLookup(st, scope, key).None?
    ensures Valid(r.st)
    ensures r.result.Ok? ==> st.nextValue <= r.result.value.id < r.st.nextValue
    ensures Evolves(st, r.st, chain, scope)
    ensures r.result.Err? ==> Evolves(st, r.st, chain + [key.typ], scope)
    ensures CallsFramed(st, r.st, chain)
    ensures r.result.Err? ==> r.result.error.ResolutionFailed? && r.result.error.typ == key.typ
    ensures r.result.Err? ==> FromResolver(r.result.error)
    decreases Pending(st, chain), 0
  {
    var reg := st.c.registrations[key];
    PendingShrinks(st, chain, key.typ, key.name);
    var made := InvokeFactory(st, key, reg.binding.factory, scope, chain + [key.typ]);
    EvolvesNarrow(st, made.st, chain, key.typ, scope);
    CallsFramedOffKey(st, made.st, key, chain);
    if made.result.Err? then
      Step(Err(ResolutionFailed(key.typ, made.result.error)), made.st)
    else
      var stored := Store(made.st, key, reg.lifetime, scope, made.result.value);
      StoreEvolves(made.st, key, reg.lifetime, scope, made.result.value, chain);
      CallsFramedSameCounters(st, made.st, stored, chain);
      EvolvesTrans(st, made.st, stored, chain, scope);
      Step(Ok(made.result.value), stored)
  }

  /** `invokeFactory`: resolves the parameters in declaration order, then
      calls the factory (counted against `key`, the type being built); a
      two-result factory may report an error, otherwise a new object is made.
      The factory runs exactly when every parameter resolved; otherwise the
      parameters' failure is returned as it is. Only validated factories get
      here, so Go's zero-result branch cannot be taken. */
  function InvokeFactory(st: State, key: Key, f: Factory, scope: Option<ScopeRef>, chain: seq<TypeTag>): (r: Step<Value>)
    requires Valid(st) && ValidShape(f.sig)
    requires key.typ in chain
    ensures Valid(r.st)
    ensures Evolves(st, r.st, chain, scope)
    ensures forall k :: Calls(st, k) <= Calls(r.st, k)
    ensures forall k: Key :: k.typ in chain && k != key ==> Calls(r.st, k) == Calls(st, k)
    ensures r.result.Err? ==> FromResolver(r.result.error) || (f.outcome.Fail? && r.result.error == FactoryError(f.outcome.message))
    ensures r.result.Ok? ==> st.nextValue <= r.result.value.id < r.st.nextValue
    decreases Pending(st, chain), 3, 0
  {
    var args := ResolveParams(st, f.sig.params, scope, chain);
    if args.result.Err? then Step(Err(args.result.error), args.st)
    else
      var called := args.st.(invocations := args.st.invocations[key := Calls(args.st, key) + 1]);
      ValidUnderCounters(args.st, called);
      if |f.sig.outs| == 2 && f.outcome.Fail? then Step(Err(FactoryError(f.outcome.message)), called)
      else
        var made := called.(nextValue := called.nextValue + 1);
        ValidUnderCounters(called, made);
        Step(Ok(Obj(called.nextValue)), made)
  }

  /** What one invocation does with the factory: it runs, counted once
      against `key`, exactly when every parameter resolved; otherwise the
      parameters' failure is returned as it is, in the state they left. A
      factory's own error comes back only from a two-result factory whose
      outcome is an error. */
  lemma InvokeFactoryRunsIffParamsResolve(st: State, key: Key, f: Factory, scope: Option<ScopeRef>, chain: seq<TypeTag>)
    requires Valid(st) && ValidShape(f.sig) && key.typ in chain
    ensures var r := InvokeFactory(st, key, f, scope, chain);
      var args := ResolveParams(st, f.sig.params, scope, chain);
      && (FactoryRan(r.result) <==> args.result.Ok?)
      && (!FactoryRan(r.result) ==> r.st == args.st && r.result == Err(args.result.error))
      && Calls(r.st, key) == Calls(st, key) + (if FactoryRan(r.result) then 1 else 0)
      && (r.result.Err? && r.result.error.FactoryError? ==> |f.sig.outs| == 2 && f.outcome.Fail?)
  {
  }

  /** The parameter loop of `invokeFactory`: each parameter is resolved
      unnamed, in the same scope, under the same chain; the first failure
      stops the loop. */
  function ResolveParams(st: State, params: seq<TypeTag>, scope: Option<ScopeRef>, chain: seq<TypeTag>): (r: Step<seq<Value>>)
    requires Valid(st)
    ensures Valid(r.st)
    ensures Evolves(st, r.st, chain, scope)
    ensures CallsFramed(st, r.st, chain)
    ensures r.result.Ok? ==> |r.result.value| == |params|
    ensures r.result.Err? ==> FromResolver(r.result.error)
    decreases Pending(st, chain), 2, |params|
  {
    if |params| == 0 then Step(Ok([]), st)
    else
      var first := Resolve(st, params[0], "", scope, chain);
      if first.result.Err? then Step(Err(first.result.error), first.st)
      else
        var rest := ResolveParams(first.st, params[1..], scope, chain);
        EvolvesTrans(st, first.st, rest.st, chain, scope);
        if rest.result.Err? then Step(Err(rest.result.error), rest.st)
        else Step(Ok([first.result.value] + rest.result.value), rest.st)
  }

  /** The parameter loop over `p + q` is the loop over `p` followed, when
      that succeeds, by the loop over `q` in the state it leaves; the values
      are concatenated in order, and a failure of `p` stops the loop. */
  lemma {:induction false} ResolveParamsAppend(st: State, p: seq<TypeTag>, q: seq<TypeTag>, scope: Option<ScopeRef>, chain: seq<TypeTag>)
    requires Valid(st)
    ensures ParamsCompose(st, p, q, scope, chain)
    decreases |p|
  {
    if |p| == 0 {
      assert p + q == q;
      var post := ResolveParams(st, q, scope, chain);
      assert ResolveParams(st, p, scope, chain) == Step(Ok([]), st);
      if post.result.Ok? {
        assert [] + post.result.value == post.result.value;
      }
    } else {
      assert (p + q)[0] == p[0];
      assert (p + q)[1..] == p[1..] + q;
      var first := Resolve(st, p[0], "", scope, chain);
      if first.result.Ok? {
        ResolveParamsAppend(first.st, p[1..], q, scope, chain);
        var r1 := ResolveParams(first.st, p[1..], scope, chain);
        if r1.result.Ok? {
          var post := ResolveParams(r1.st, q, scope, chain);
          if post.result.Ok? {
            ConcatAssoc([first.result.value], r1.result.value, post.result.value);
          }
        }
      }
    }
  }

  /** The relation `ResolveParamsAppend` establishes. */
  predicate ParamsCompose(st: State, p: seq<TypeTag>, q: seq<TypeTag>, scope: Option<ScopeRef>, chain: seq<TypeTag>)
    requires Valid(st)
  {
    var pre := ResolveParams(st, p, scope, chain);
    var all := ResolveParams(st, p + q, scope, chain);
    if pre.result.Err? then all == pre
    else
      var post := ResolveParams(pre.st, q, scope, chain);
      && all.st == post.st
      && (post.result.Err? ==> all.result == post.result)
      && (post.result.Ok? ==> all.result == Ok(pre.result.value + post.result.value))
  }

  /** Parameter `i` is resolved unnamed, after parameters `0 .. i-1` and in
      the state they leave. If it fails, the loop fails with its error and
      stops in the state it left; if the loop succeeds, value `i` is the value
      of that resolution and the values before it are those of the earlier
      parameters. */
  lemma ResolveParamsInOrder(st: State, params: seq<TypeTag>, i: nat, scope: Option<ScopeRef>, chain: seq<TypeTag>)
    requires Valid(st) && i < |params|
    ensures var pre := ResolveParams(st, params[..i], scope, chain);
      pre.result.Err? ==> ResolveParams(st, params, scope, chain) == pre
    ensures var pre := ResolveParams(st, params[..i], scope, chain);
      var one := Resolve(pre.st, params[i], "", scope, chain);
      pre.result.Ok? && one.result.Err? ==> ResolveParams(st, params, scope, chain) == Step(Err(one.result.error), one.st)
    ensures var pre := ResolveParams(st, params[..i], scope, chain);
      var one := Resolve(pre.st, params[i], "", scope, chain);
      var all := ResolveParams(st, params, scope, chain);
      all.result.Ok? ==>
        && pre.result.Ok? && one.result.Ok?
        && all.result.value[..i] == pre.result.value
        && all.result.value[i] == one.result.value
  {
    assert params == params[..i] + params[i..];
    ResolveParamsAppend(st, params[..i], params[i..], scope, chain);
    var pre := ResolveParams(st, params[..i], scope, chain);
    if pre.result.Ok? {
      assert params[i..][0] == params[i];
      var one := Resolve(pre.st, params[i], "", scope, chain);
      var post := ResolveParams(pre.st, params[i..], scope, chain);
      if one.result.Err? {
        assert post == Step(Err(one.result.error), one.st);
      } else {
        var tail := ResolveParams(one.st, params[i..][1..], scope, chain);
        assert post == (if tail.result.Err? then Step(Err(tail.result.error), tail.st)
                        else Step(Ok([one.result.value] + tail.result.value), tail.st));
        if post.result.Ok? {
          var all := pre.result.value + post.result.value;
          assert |pre.result.value| == i;
          assert all[..i] == pre.result.value;
          assert all[i] == post.result.value[0] == one.result.value;
        }
      }
    }
  }

  lemma ConcatAssoc<T>(a: seq<T>, b: seq<T>, c: seq<T>)
    ensures a + (b + c) == (a + b) + c
  {
  }

  /** `ResolveNamed`: a top-level resolution with no scope and an empty
      chain. It fails with `NotRegistered` of the requested type exactly when
      `HasNamed` is false; any other failure is a `ResolutionFailed` for
      that type. */
  function ResolveNamed(st: State, t: TypeTag, name: string): (r: Step<Value>)
    requires Valid(st)
    ensures r.result == Err(NotRegistered(t)) <==> !HasNamed(st, t, name)
    ensures r.result.Err? ==> r.result.error.NotRegistered? || (r.result.error.ResolutionFailed? && r.result.error.typ == t)
    ensures r.st.c.registrations == st.c.registrations
  {
    Resolve(st, t, name, None, [])
  }

  /** `Resolve[T]`: the unnamed registration. */
  function ResolveUnnamed(st: State, t: TypeTag): (r: Step<Value>)
    requires Valid(st)
    ensures r.result == Err(NotRegistered(t)) <==> !Has(st, t)
    ensures r.st.c.registrations == st.c.registrations
  {
    ResolveNamed(st, t, "")
  }

  /** `ResolveInScope`: the unnamed registration, resolved in `scope` (which
      may be nil). Of the scope caches, only that scope's can change. */
  function ResolveInScope(st: State, t: TypeTag, scope: Option<ScopeRef>): (r: Step<Value>)
    requires Valid(st)
    ensures r.result == Err(NotRegistered(t)) <==> !Has(st, t)
    ensures r.result.Err? ==> r.result.error.NotRegistered? || (r.result.error.ResolutionFailed? && r.result.error.typ == t)
    ensures Evolves(st, r.st, [], scope)
  {
    Resolve(st, t, "", scope, [])
  }
}

=== FILE: scope.dfy ===
/** A named cache of scoped instances. The `parent` back-pointer of Go's
    `Scope` struct is not modelled: nothing reads it. */
module Scopes {
  import opened Wrappers
  import opened Tags
  import opened Registrations

  datatype Scope = Scope(name: string, instances: map<Key, Value>)

  /** `newScope`: a scope with the given name and no cached instances. */
  function NewScope(name: string): (s: Scope)
    ensures Name(s) == name
    ensures forall k :: Get(s, k) == None
  {
    Scope(name, map[])
  }

  /** `Scope.Name`. */
  function Name(s: Scope): string
  {
    s.name
  }

  /** `scope.get`: the cached instance for `k`, if any. A hit is always
      one of the values the scope caches. */
  function Get(s: Scope, k: Key): (r: Option<Value>)
    ensures r.None? <==> k !in s.instances
    ensures r.Some? ==> r.value in s.instances.Values
  {
    if k in s.instances then Some(s.instances[k]) else None
  }

  /** `scope.set` caches `v` under `k`: a later `Get` of `k` sees `v`, every other key
      and the name are left as they were. */
  function Set(s: Scope, k: Key, v: Value): (r: Scope)
    ensures Get(r, k) == Some(v)
    ensures forall k' :: k' != k ==> Get(r, k') == Get(s, k')
    ensures Name(r) == Name(s)
  {
    s.(instances := s.instances[k := v])
  }
}

=== FILE: tags.dfy ===
/** Abstract replacements for Go reflection: a runtime type becomes a
    comparable tag, and an object reference becomes a value with an identity. */
module Tags {

  /** A runtime type. `id` stands for the identity `reflect.Type` compares by;
      `name` is what `reflect.Type.String()` prints in error messages.
      Equality is on both fields: a type's name is taken to be fixed by its
      identity, so this is the identity comparison. */
  datatype TypeTag = TypeTag(id: nat, name: string)

  /** An object reference handed out by the container. Two values are the
      same object exactly when their identities agree. */
  datatype Value = Obj(id: nat)
}

=== FILE: wrappers.dfy ===
/** Option and result types used throughout the model: Go's
    `(T, error)` pairs become `Result`, and nil-able pointers become `Option`. */
module Wrappers {

  /** A value that may be absent (a nil pointer or a nil error in Go). */
  datatype Option<+T> = None | Some(value: T)

  /** Either a value or the error that replaced it. */
  datatype Result<+T, +E> = Ok(value: T) | Err(error: E)
}
